=== FILE: README.md ===
# ClearFund off-chain record layer, modelled in Dafny

ClearFund is a donation-tracking web application. Its server keeps campaign records
("Donation" documents) and transaction records in a document database. It also calls a
blockchain service to deploy one contract per campaign and to send donations to that
contract. This project models the server's record layer as pure functions over an
immutable store, and proves properties of those functions:

- **Transaction records** (`Transactions`, `transactions.dfy`). This covers the schema:
  a required campaign reference, an amount of at least 0, enumerated type, status and
  payment method, defaults, and a sparse unique transaction hash. It also covers the
  pre-save hook. The hook appends one `{status, "Transaction <status>"}` timeline entry
  when a record is first saved, and one more whenever a save changes its status.
- **Campaign records** (`Campaigns`, `campaigns.dfy`). This covers defaults, required
  fields, length bounds, the minimum target, the enumerations, and the sparse unique
  contract address.
- **Schema validation** (`Validation`, `validation.dfy`). The rules are held as data, one
  rule list per path. A save runs them first and is refused, naming every failing path,
  when any rule fails. A `required` string must also be non-empty.
- **The store** (`Records`, `records.dfy`). It holds two collections and a counter that
  hands out fresh ids. Its invariant `Wellformed` says that every stored document is
  valid, that the unique indexes hold, and that every timeline ends with an entry for its
  record's current status.
- **The ledger** (`Ledger`, `ledger.dfy`). The blockchain service is an input: each
  operation is given the outcome the service will report, either `Done(address or hash)`
  or `Failed`. Each operation returns the calls it made, with their arguments.
- **The controller** (`Listing`, `listing.dfy`; `DonationController`, `controller.dfy`).
  `getDonations` covers the filter, the defaults page 1 and limit 12, skip and limit, and
  the page count. `createDonation` validates, saves, deploys, then saves the address.
  `processDonation` finds the campaign, sends the donation to the ledger, records a pending
  transaction, then updates the campaign's totals. `createDonation` and `processDonation`
  are each a step from a store to a new store, an HTTP response and a list of ledger calls.
  `getDonations` answers one page from the collection, in listing order, and the query.

What the code does not do:

- The code has no status lifecycle. Any status may follow any other, and every change
  adds one timeline entry.
- `processDonation` checks neither the campaign's status nor the amount's sign. A
  negative amount is refused only by the transaction schema's minimum of 0.
- Nothing reverses a campaign's totals when a receipt fails.
- Contracts are deployed when a campaign is created. There is no separate activation
  step. A new campaign starts with the status its request body gives, `draft` by default.
- A failed deployment leaves the just-saved campaign stored. It is not rolled back.

## Model

| member | source | states |
|---|---|---|
| Transactions.Create | server/src/models/Transaction.js:23-50 | fields the caller leaves out take the schema defaults: status `pending`, currency `INR`, payment method `crypto`; a given status, campaign, donor, amount, type and hash are kept |
| Transactions.Check | server/src/models/Transaction.js:5-50 | the schema's rules reject no path exactly when the record references a campaign, has an amount ≥ 0, a type in {donation, distribution, refund, fee}, a status in {pending, confirmed, completed, failed, cancelled} and a payment method in {crypto, bank, upi, card} |
| Transactions.Save | server/src/models/Transaction.js:91-100 | a save succeeds exactly when the record is valid and its hash is held by no other record; a new record gets exactly one entry for its initial status; a status change appends exactly one entry `"Transaction " + status`; an unchanged status leaves the timeline alone; the old timeline is always a prefix of the new one, with at most one entry added; the timeline ends with the current status |
| Transactions.TimelineIsStatusHistory | server/src/models/Transaction.js:91-98 | over any sequence of successful saves of one record, the timeline's statuses are the saved statuses with repeats collapsed: one entry for the first save and one per status change, in order |
| Campaigns.Create | server/src/models/Donation.js:25-46 | a body that omits them gets raised 0, donors 0, status `draft`, urgency `medium`, currency `INR` and start date now, and a body that gives them keeps its values; title, description, category, target, end date, beneficiary wallet and contract address come from the body as given; the new campaign has no transactions, and its owner and creator come from the user |
| Campaigns.Check | server/src/models/Donation.js:5-64 | the schema's rules reject no path exactly when title (≤ 200 characters), description (≤ 2000), beneficiary wallet, end date, organization and creator are present, target ≥ 1000, category in the six categories, urgency in {low, medium, high} and status in the five campaign statuses |
| Campaigns.Save | server/src/models/Donation.js:65-69 | a campaign save succeeds exactly when the campaign is valid and its contract address is held by no other campaign; a failed save changes nothing |
| Records.InsertTx | server/src/models/Transaction.js:37-41 | a new transaction is stored under a fresh id exactly when it is valid and its hash is new; it starts with a one-entry timeline; a well-formed store stays well-formed, so stored hashes stay unique and statuses, types and amounts stay within the schema |
| Records.UpdateTx | server/src/models/Transaction.js:91-98 | re-saving a stored transaction changes only that record and keeps the store well-formed, including the rule that its timeline ends with its status |
| Records.InsertCampaign | server/src/models/Donation.js:4-69 | a new campaign is stored under a fresh id exactly when it is valid and its contract address is new; a well-formed store stays well-formed |
| Records.UpdateCampaign | server/src/models/Donation.js:65-69 | re-saving a campaign replaces only that campaign, and keeps the contract addresses unique |
| Listing.Select | server/src/controllers/donationController.js:19-22 | a campaign is selected exactly when it is in the collection, is `active`, and matches the category, urgency and search whenever each is given |
| Listing.SelectAppend | server/src/controllers/donationController.js:31-35 | the selection keeps the collection's order and multiplicity: selecting from one run followed by another gives the first run's selection followed by the second's, so the newest-first order of the collection is the order of the listing |
| Listing.UnfilteredListsAllActive | server/src/controllers/donationController.js:19-22 | with no category, urgency or search, the listing selects exactly the active campaigns |
| Listing.TotalPages | server/src/controllers/donationController.js:44 | the page count is the ceiling of total / limit: 0 for no matches, otherwise (pages − 1) · limit < total ≤ pages · limit |
| Listing.GetDonations | server/src/controllers/donationController.js:9-55 | page defaults to 1 and limit to 12; a page below 1 answers 500; otherwise the answer holds the matches that follow the first (page − 1) · limit, at most limit of them, and reports the page, the page count and the number of matches |
| Listing.EveryMatchIsListed | server/src/controllers/donationController.js:31-37 | paging loses no match: match number k · limit + m, with m < limit, is item m of page k + 1, and that page is within the page count |
| DonationController.CreateDonation | server/src/controllers/donationController.js:58-100 | failed input rules answer 400 with no save and no deployment; once they passed, every failure answers 500; a stored campaign always gets its contract deployed; no deployment happens unless the campaign was valid, under a fresh id, and stored; a failed deployment answers 500; whenever the request fails after the campaign was stored (a failed deployment, or a refused save of the deployed address), the campaign stays stored as built; success answers 201, and the stored campaign carries the deployed address; existing campaigns are untouched; the store stays well-formed |
| DonationController.CreateDonationSucceeds | server/src/controllers/donationController.js:75-92 | in a well-formed store, a valid campaign whose addresses are unused is created with a 201 answer |
| DonationController.ProcessDonation | server/src/controllers/donationController.js:103-156 | an unknown campaign answers 404 with no ledger call and no change; otherwise the ledger gets exactly one donation call, and every failure answers 500; a ledger failure or a refused record changes nothing; on success exactly one new record is added: a pending `donation` by the requesting user, for this campaign and amount, holding the ledger's hash; and the campaign's raised grows by the amount, donors by one and its transaction list by the new id, with nothing else changed; no campaign's contract address changes |
| DonationController.Credit | server/src/controllers/donationController.js:136-139 | a donation adds its amount to the campaign's raised total, one to its donors and its transaction's id to the end of its transaction list, changes no other field, and leaves the campaign exactly as valid as before |
| DonationController.ProcessDonationSucceeds | server/src/controllers/donationController.js:117-148 | in a well-formed store, a donation of an amount ≥ 0 to an existing campaign, for which the ledger returns a hash no stored transaction holds, is answered with success |
| DonationController.ProcessDonationKeepsStoreWellformed | server/src/controllers/donationController.js:124-139 | from a well-formed store, every donation keeps the store well-formed, and every failed donation leaves the store exactly as it was |
| DonationController.TotalsCountAcceptedDonations | server/src/controllers/donationController.js:136-139 | over donations served one after another, a campaign's raised grows by exactly the sum of its successfully answered donations, and donors by their number |

## Left out

- The blockchain service is an outcome parameter. That covers the web3 provider,
  contract deployment, gas estimation and the float gas padding, value transfers,
  wei/ether conversion, receipts, block timestamps and balance reads. Its
  `recordTransaction` swallows its own errors, so it cannot change a donation's outcome
  and is not modelled.
- Query mechanics are not modelled. The search is an abstract predicate `hit(search,
  campaign)` standing for the case-insensitive pattern match. An invalid pattern, and
  `populate`, are not modelled. The sort by creation time is the order of the collection
  the listing is given.
- Listing.GetDonations: requires a limit of at least 1. A limit of 0 means "no limit" to
  the database; its page count is infinite when something matches and not a number when
  nothing does. Negative limits have the database's own meaning. Neither is modelled.
- The `daysLeft` and `progressPercentage` virtuals are not modelled. They use the clock
  and floating point.
- The client components are not modelled: campaign card, tracking timeline and header.
- Concurrency is not modelled. The read-modify-write of the totals at
  `donationController.js:136-139` loses updates under parallel requests; the model runs
  requests one after another.
- JavaScript coercion is not modelled. Amounts, pages and limits are integers. A string
  amount in the request body is neither cast nor concatenated, and a malformed campaign id
  (a cast error, answered 500) cannot be expressed.
- Campaigns.Create: models only the scalar fields a request body can supply. A body's
  arrays are not modelled: images, documents, transactions and tags. A new campaign
  therefore starts with no transactions. The location, verification and metrics
  sub-documents are not modelled either.
- Transactions.Create: models only the fields the record layer sets. The recipient,
  payment details, metadata, verification, fees, block fields and `timestamps` are not
  modelled.
- Database failures other than validation and unique indexes are not modelled, such as
  lost connections.
- Express-validator's route rules are not part of this model. `createDonation` takes
  their verdict as the boolean `passedRules`.
- The request's user comes from the authentication middleware. It is a parameter.
- String lengths count Unicode scalar values. The source counts UTF-16 code units, and the
  two differ only outside the Basic Multilingual Plane.
- The timestamp of a timeline entry is the parameter `now`. The hook reads the clock.

=== FILE: base.dfy ===
/**
 * Shared vocabulary of the donation record layer: document ids, optional values,
 * results, and the success/error envelope every controller answers with.
 */
module Base {

  /** A document id (a database ObjectId). The store hands ids out; they are never reused. */
  type Id = nat

  /** A value that may be missing, as an unset field of a document or request is. */
  datatype Option<+T> = None | Some(value: T) {

    /** The value if present, the default otherwise (a schema default or a destructuring default). */
    function GetOr(default: T): T {
      match this
      case Some(v) => v
      case None => default
    }
  }

  /** The outcome of a store operation: a value, or the error it was refused with. */
  datatype Result<+T, +E> = Ok(value: T) | Err(error: E)

  /** An HTTP answer: a status code with a payload, or a status code with an error message. */
  datatype Response<+T> = Reply(code: int, data: T) | Fault(code: int, message: string)

  function Last<T>(s: seq<T>): T
    requires |s| > 0
  {
    s[|s| - 1]
  }

  /** A string that counts as given: present and non-empty (JavaScript truthiness, and what a
      schema's `required` rule accepts of a string). */
  predicate Filled(s: Option<string>) {
    s.Some? && |s.value| > 0
  }

  function Min(a: int, b: int): int {
    if a <= b then a else b
  }
}

=== FILE: campaigns.dfy ===
/**
 * The campaign record (stored as a "Donation" document): its defaults, its schema
 * (required fields, length bounds, minimum target, enumerations) and the sparse unique
 * index on the deployed contract's address.
 */
module Campaigns {
  import opened Base
  import opened Validation

  const Categories: set<string> := {"education", "health", "disaster", "environment", "poverty", "other"}
  const Urgencies: set<string> := {"low", "medium", "high"}
  const Statuses: set<string> := {"draft", "active", "completed", "cancelled", "suspended"}

  const MaxTitle := 200
  const MaxDescription := 2000
  const MinTarget := 1000

  const DefaultRaised := 0
  const DefaultDonors := 0
  const DefaultCurrency := "INR"
  const DefaultUrgency := "medium"
  const DefaultStatus := "draft"

  /** The fields of a campaign document that the record layer reads or writes. Dates are
      milliseconds since the epoch. */
  datatype Campaign = Campaign(
    title: Option<string>,
    description: Option<string>,
    category: Option<string>,
    target: Option<int>,
    raised: int,
    currency: string,
    urgency: string,
    status: string,
    startDate: int,
    endDate: Option<int>,
    organization: Option<Id>,
    createdBy: Option<Id>,
    beneficiaryWallet: Option<string>,
    contractAddress: Option<string>,
    transactions: seq<Id>,
    donors: int)

  type Collection = map<Id, Campaign>

  /** The scalar fields a request body may supply when a campaign is created. */
  datatype Draft = Draft(
    title: Option<string>,
    description: Option<string>,
    category: Option<string>,
    target: Option<int>,
    raised: Option<int>,
    currency: Option<string>,
    urgency: Option<string>,
    status: Option<string>,
    startDate: Option<int>,
    endDate: Option<int>,
    beneficiaryWallet: Option<string>,
    contractAddress: Option<string>,
    donors: Option<int>)

  /**
   * Constructs a campaign from a body, the creating user's organization and id, and the
   * current time; every field the body leaves out takes the schema's default.
   */
  function Create(body: Draft, organization: Option<Id>, createdBy: Option<Id>, now: int): (c: Campaign)
    ensures body.raised.None? ==> c.raised == 0
    ensures body.donors.None? ==> c.donors == 0
    ensures body.status.None? ==> c.status == "draft"
    ensures body.urgency.None? ==> c.urgency == "medium"
    ensures body.currency.None? ==> c.currency == "INR"
    ensures body.startDate.None? ==> c.startDate == now
    ensures body.raised.Some? ==> c.raised == body.raised.value
    ensures body.donors.Some? ==> c.donors == body.donors.value
    ensures body.status.Some? ==> c.status == body.status.value
    ensures body.urgency.Some? ==> c.urgency == body.urgency.value
    ensures body.currency.Some? ==> c.currency == body.currency.value
    ensures body.startDate.Some? ==> c.startDate == body.startDate.value
    ensures c.title == body.title && c.description == body.description && c.category == body.category
    ensures c.target == body.target && c.endDate == body.endDate
    ensures c.beneficiaryWallet == body.beneficiaryWallet
    ensures c.transactions == [] && c.contractAddress == body.contractAddress
    ensures c.organization == organization && c.createdBy == createdBy
  {
    Campaign(
      body.title, body.description, body.category, body.target,
      body.raised.GetOr(DefaultRaised), body.currency.GetOr(DefaultCurrency),
      body.urgency.GetOr(DefaultUrgency), body.status.GetOr(DefaultStatus),
      body.startDate.GetOr(now), body.endDate, organization, createdBy,
      body.beneficiaryWallet, body.contractAddress, [], body.donors.GetOr(DefaultDonors))
  }

  // ----- schema validation -----

  datatype Path =
    | Title | Description | Category | Target | Urgency | Status
    | EndDate | Organization | CreatedBy | BeneficiaryWallet

  function Rules(p: Path): seq<Rule> {
    match p
    case Title => [Required, MaxLength(MaxTitle)]
    case Description => [Required, MaxLength(MaxDescription)]
    case Category => [Required, OneOf(Categories)]
    case Target => [Required, AtLeast(MinTarget)]
    case Urgency => [OneOf(Urgencies)]
    case Status => [OneOf(Statuses)]
    case EndDate => [Required]
    case Organization => [Required]
    case CreatedBy => [Required]
    case BeneficiaryWallet => [Required]
  }

  const CampaignSchema: Schema<Path> := Schema(
    {Title, Description, Category, Target, Urgency, Status,
     EndDate, Organization, CreatedBy, BeneficiaryWallet},
    Rules)

  function TextValue(s: Option<string>): Value {
    if s.Some? then Str(s.value) else Absent
  }

  function FieldValue(c: Campaign, p: Path): Value {
    match p
    case Title => TextValue(c.title)
    case Description => TextValue(c.description)
    case Category => TextValue(c.category)
    case Target => if c.target.Some? then Num(c.target.value) else Absent
    case Urgency => Str(c.urgency)
    case Status => Str(c.status)
    case EndDate => if c.endDate.Some? then Num(c.endDate.value) else Absent
    case Organization => if c.organization.Some? then Ref(c.organization.value) else Absent
    case CreatedBy => if c.createdBy.Some? then Ref(c.createdBy.value) else Absent
    case BeneficiaryWallet => TextValue(c.beneficiaryWallet)
  }

  /** What the schema demands of every stored campaign. */
  predicate Valid(c: Campaign) {
    && Filled(c.title) && |c.title.value| <= MaxTitle
    && Filled(c.description) && |c.description.value| <= MaxDescription
    && c.category.Some? && c.category.value in Categories
    && c.target.Some? && c.target.value >= MinTarget
    && c.urgency in Urgencies
    && c.status in Statuses
    && c.endDate.Some?
    && c.organization.Some?
    && c.createdBy.Some?
    && Filled(c.beneficiaryWallet)
  }

  /** What the schema demands of one path, stated on the campaign's fields. */
  predicate PathValid(c: Campaign, p: Path) {
    match p
    case Title => Filled(c.title) && |c.title.value| <= MaxTitle
    case Description => Filled(c.description) && |c.description.value| <= MaxDescription
    case Category => c.category.Some? && c.category.value in Categories
    case Target => c.target.Some? && c.target.value >= MinTarget
    case Urgency => c.urgency in Urgencies
    case Status => c.status in Statuses
    case EndDate => c.endDate.Some?
    case Organization => c.organization.Some?
    case CreatedBy => c.createdBy.Some?
    case BeneficiaryWallet => Filled(c.beneficiaryWallet)
  }

  /** The rules of one path pass exactly when that path's demand holds. */
  lemma PathRulesAgree(c: Campaign, p: Path)
    ensures PathOk(Rules(p), FieldValue(c, p)) <==> PathValid(c, p)
  {
    var v := FieldValue(c, p);
    match p
    case Title => PathOkTwo(Required, MaxLength(MaxTitle), v);
    case Description => PathOkTwo(Required, MaxLength(MaxDescription), v);
    case Category => PathOkTwo(Required, OneOf(Categories), v);
    case Target => PathOkTwo(Required, AtLeast(MinTarget), v);
    case Urgency => PathOkOne(OneOf(Urgencies), v);
    case Status => PathOkOne(OneOf(Statuses), v);
    case EndDate => PathOkOne(Required, v);
    case Organization => PathOkOne(Required, v);
    case CreatedBy => PathOkOne(Required, v);
    case BeneficiaryWallet => PathOkOne(Required, v);
  }

  /** A campaign is valid exactly when every path's demand holds; the schema declares every path. */
  lemma ValidEveryPath(c: Campaign)
    ensures Valid(c) <==> forall p: Path :: PathValid(c, p)
    ensures forall p: Path :: p in CampaignSchema.paths
  {
    if forall p: Path :: PathValid(c, p) {
      assert PathValid(c, Title) && PathValid(c, Description) && PathValid(c, Category);
      assert PathValid(c, Target) && PathValid(c, Urgency) && PathValid(c, Status);
      assert PathValid(c, EndDate) && PathValid(c, Organization) && PathValid(c, CreatedBy);
      assert PathValid(c, BeneficiaryWallet);
    }
    forall p: Path
      ensures p in CampaignSchema.paths
    {
      match p
      case Title => case Description => case Category => case Target => case Urgency =>
      case Status => case EndDate => case Organization => case CreatedBy => case BeneficiaryWallet =>
    }
  }

  lemma NoViolationsIffValid(c: Campaign, value: Path -> Value)
    requires forall p :: value(p) == FieldValue(c, p)
    ensures Violations(CampaignSchema, value) == {} <==> Valid(c)
  {
    forall p: Path
      ensures PathOk(Rules(p), value(p)) <==> PathValid(c, p)
    {
      PathRulesAgree(c, p);
    }
    ValidEveryPath(c);
    ViolationsAre(CampaignSchema, value);
    if Violations(CampaignSchema, value) != {} {
      var p :| p in Violations(CampaignSchema, value);
    }
  }

  /** The paths the schema rejects; none exactly when the campaign is valid. */
  function Check(c: Campaign): (bad: set<Path>)
    ensures bad == {} <==> Valid(c)
  {
    var value := (p: Path) => FieldValue(c, p);
    NoViolationsIffValid(c, value);
    Violations(CampaignSchema, value)
  }

  /** The sparse unique index on `contractAddress`: a present address is held by no other campaign. */
  predicate AddressFree(cs: Collection, key: Id, a: Option<string>) {
    a.None? || forall k | k in cs && k != key :: cs[k].contractAddress != a
  }

  /** Saves `c` under `key` (a new campaign when the key is not yet used): validation, then the
      unique address index, then the write. */
  function Save(cs: Collection, key: Id, c: Campaign): (r: Result<Collection, SaveError<Path>>)
    ensures r.Ok? <==> Valid(c) && AddressFree(cs, key, c.contractAddress)
    ensures r.Err? && !Valid(c) ==> r.error.ValidationError? && r.error.paths != {}
    ensures r.Ok? ==> r.value == cs[key := c]
  {
    var bad := Check(c);
    if bad != {} then Err(ValidationError(bad))
    else if !AddressFree(cs, key, c.contractAddress) then Err(DuplicateKey("contractAddress"))
    else Ok(cs[key := c])
  }
}

=== FILE: controller.dfy ===
/**
 * The campaign controller's two writing operations as steps over the record store. Each
 * step takes the outcome the blockchain service will report, and returns the new store,
 * the HTTP response, and the ledger calls it made.
 */
module DonationController {
  import opened Base
  import opened Ledger
  import opened Records
  import Transactions
  import Campaigns

  const ValidationFailed := "Validation error"
  const CreateFailed := "Failed to create donation campaign"
  const CampaignNotFound := "Donation campaign not found"
  const ProcessFailed := "Failed to process donation"

  /** The authenticated user making a request. */
  datatype User = User(id: Id, organizationId: Option<Id>, walletAddress: Option<string>)

  datatype Step<+T> = Step(store: Store, response: Response<T>, calls: seq<Call>)

  // ----- createDonation -----

  /** The campaign built from a request body: the body's fields, the user's organization as
      owner and the user as creator. */
  function Built(body: Campaigns.Draft, user: User, now: int): Campaigns.Campaign {
    Campaigns.Create(body, user.organizationId, Some(user.id), now)
  }

  /**
   * Creates a campaign: refuses the request when the route's input rules failed
   * (`passedRules` false), saves the built campaign, deploys its contract, then saves the
   * contract's address on it. Answers 201 with the stored campaign.
   */
  function CreateDonation(s: Store, passedRules: bool, body: Campaigns.Draft, user: User, now: int, deploy: Outcome): (r: Step<(Id, Campaigns.Campaign)>)
    // input errors: 400, nothing saved, no deployment
    ensures !passedRules ==> r == Step(s, Fault(400, ValidationFailed), [])
    // no deployment happens unless the campaign was stored first
    ensures r.calls == [] ==> r.store == s
    ensures r.calls != [] ==>
              var c := Built(body, user, now);
              && passedRules && Campaigns.Valid(c) && s.nextId !in s.campaigns
              && r.calls == [Deploy(c.target, c.beneficiaryWallet, user.walletAddress)]
              && r.store.txs == s.txs && r.store.nextId == s.nextId + 1
    // once the campaign is stored, its contract is deployed
    ensures passedRules && InsertCampaign(s, Built(body, user, now)).Ok? ==> r.calls != []
    // a failed deployment answers 500
    ensures r.calls != [] && deploy.Failed? ==> r.response == Fault(500, CreateFailed)
    // once stored, the campaign stays stored as built whenever the request fails afterwards
    // (a failed deployment, or a refused save of the deployed address)
    ensures r.calls != [] && r.response.Fault? ==>
              r.store.campaigns == s.campaigns[s.nextId := Built(body, user, now)]
    // success: the stored campaign carries the deployed contract's address
    ensures r.response.Reply? ==>
              && deploy.Done? && r.response.code == 201
              && r.response.data.0 == s.nextId
              && r.response.data.1 == Built(body, user, now).(contractAddress := Some(deploy.value))
              && r.store.campaigns == s.campaigns[s.nextId := r.response.data.1]
    ensures r.response.Fault? ==> r.response.code == 400 || r.response == Fault(500, CreateFailed)
    // once the route's rules passed, every failure answers 500
    ensures passedRules && r.response.Fault? ==> r.response == Fault(500, CreateFailed)
    // campaigns that already existed are untouched, and the store invariant is kept
    ensures forall k | k in s.campaigns :: k in r.store.campaigns && r.store.campaigns[k] == s.campaigns[k]
    ensures Wellformed(s) ==> Wellformed(r.store)
  {
    if !passedRules then Step(s, Fault(400, ValidationFailed), [])
    else
      var c := Built(body, user, now);
      match InsertCampaign(s, c)
      case Err(_) => Step(s, Fault(500, CreateFailed), [])
      case Ok((saved, id)) =>
        var calls := [Deploy(c.target, c.beneficiaryWallet, user.walletAddress)];
        match deploy
        case Failed => Step(saved, Fault(500, CreateFailed), calls)
        case Done(address) =>
          var deployed := c.(contractAddress := Some(address));
          match UpdateCampaign(saved, id, deployed)
          case Err(_) => Step(saved, Fault(500, CreateFailed), calls)
          case Ok(final) => Step(final, Reply(201, (id, deployed)), calls)
  }

  /** In a well-formed store, a valid campaign whose deployed address is new is created. */
  lemma CreateDonationSucceeds(s: Store, body: Campaigns.Draft, user: User, now: int, address: string)
    requires Wellformed(s)
    requires Campaigns.Valid(Built(body, user, now))
    requires Campaigns.AddressFree(s.campaigns, s.nextId, Built(body, user, now).contractAddress)
    requires Campaigns.AddressFree(s.campaigns, s.nextId, Some(address))
    ensures CreateDonation(s, true, body, user, now, Done(address)).response.Reply?
  {
    assert s.nextId !in s.campaigns;
  }

  // ----- processDonation -----

  /** The transaction a donation records: pending, of type donation, with the ledger's hash. */
  function Recorded(campaignId: Id, amount: Option<int>, user: User, hash: string): Transactions.Transaction {
    Transactions.Create(Transactions.Draft(Some(campaignId), Some(user.id), amount, Some("donation"), Some("pending"), Some(hash)))
  }

  /** The campaign after a donation of `amount` recorded as transaction `txId`: the amount
      and one donor added to its totals, the transaction appended; nothing else changes. */
  function Credit(c: Campaigns.Campaign, amount: int, txId: Id): (r: Campaigns.Campaign)
    ensures r.raised == c.raised + amount && r.donors == c.donors + 1
    ensures r.transactions == c.transactions + [txId]
    ensures r.(raised := c.raised, donors := c.donors, transactions := c.transactions) == c
    ensures Campaigns.Valid(r) <==> Campaigns.Valid(c)
  {
    c.(raised := c.raised + amount, donors := c.donors + 1, transactions := c.transactions + [txId])
  }

  /**
   * Processes a donation to a campaign: looks the campaign up, sends the donation to its
   * contract, records a pending transaction with the returned hash, then adds the amount
   * and one donor to the campaign's totals and appends the transaction. Answers with the
   * hash and the transaction's id.
   */
  function ProcessDonation(s: Store, campaignId: Id, amount: Option<int>, wallet: Option<string>, user: User, now: int, ledger: Outcome): (r: Step<(string, Id)>)
    // unknown campaign: 404, no ledger call, nothing changes
    ensures campaignId !in s.campaigns ==> r == Step(s, Fault(404, CampaignNotFound), [])
    ensures campaignId in s.campaigns ==>
              r.calls == [Donate(s.campaigns[campaignId].contractAddress, amount, wallet)]
    // the ledger refused: nothing changes
    ensures ledger.Failed? ==> r.store == s && r.response.Fault?
    // a refused transaction record (a negative or missing amount, a hash already stored):
    // nothing changes
    ensures ledger.Done? && !Transactions.Valid(Recorded(campaignId, amount, user, ledger.value)) ==>
              r.store == s && r.response.Fault?
    ensures campaignId in s.campaigns && ledger.Done?
            && InsertTx(s, Recorded(campaignId, amount, user, ledger.value), now).Err? ==>
              r.store == s && r.response == Fault(500, ProcessFailed)
    // on any failure the campaigns keep their totals and transaction lists
    ensures r.response.Fault? ==> r.store.campaigns == s.campaigns
    ensures r.response.Fault? ==> r.response.code == 404 || r.response == Fault(500, ProcessFailed)
    // for a known campaign every failure answers 500
    ensures campaignId in s.campaigns && r.response.Fault? ==> r.response == Fault(500, ProcessFailed)
    // success: one new pending donation record, and the campaign's totals move by exactly it
    ensures r.response.Reply? ==>
              var (hash, txId) := r.response.data;
              var c := s.campaigns[campaignId];
              && campaignId in s.campaigns && ledger == Done(hash) && r.response.code == 200
              && amount.Some? && amount.value >= 0
              && txId == s.nextId && txId !in s.txs
              && r.store.txs == s.txs[txId := Transactions.Stored(Recorded(campaignId, amount, user, hash),
                                                                  [Transactions.Entry("pending", now)])]
              && r.store.campaigns == s.campaigns[campaignId := Credit(c, amount.value, txId)]
    // the new record is a pending donation to this campaign by this user, carrying the ledger's hash
    ensures r.response.Reply? ==>
              var (hash, txId) := r.response.data;
              && txId in r.store.txs
              && r.store.txs[txId].doc.donation == Some(campaignId)
              && r.store.txs[txId].doc.donor == Some(user.id)
              && r.store.txs[txId].doc.amount == amount
              && r.store.txs[txId].doc.kind == Some("donation")
              && r.store.txs[txId].doc.status == "pending"
              && r.store.txs[txId].doc.transactionHash == Some(hash)
    ensures r.store.campaigns.Keys == s.campaigns.Keys
    ensures forall k | k in s.campaigns :: r.store.campaigns[k].contractAddress == s.campaigns[k].contractAddress
  {
    if campaignId !in s.campaigns then Step(s, Fault(404, CampaignNotFound), [])
    else
      var c := s.campaigns[campaignId];
      var calls := [Donate(c.contractAddress, amount, wallet)];
      match ledger
      case Failed => Step(s, Fault(500, ProcessFailed), calls)
      case Done(hash) =>
        match InsertTx(s, Recorded(campaignId, amount, user, hash), now)
        case Err(_) => Step(s, Fault(500, ProcessFailed), calls)
        case Ok((saved, txId)) =>
          match UpdateCampaign(saved, campaignId, Credit(c, amount.value, txId))
          case Err(_) => Step(saved, Fault(500, ProcessFailed), calls)
          case Ok(final) => Step(final, Reply(200, (hash, txId)), calls)
  }

  /**
   * In a well-formed store, a donation of a non-negative amount to a known campaign, whose
   * ledger hash no stored transaction holds, is answered with success.
   */
  lemma ProcessDonationSucceeds(s: Store, campaignId: Id, amount: int, wallet: Option<string>, user: User, now: int, hash: string)
    requires Wellformed(s) && campaignId in s.campaigns && amount >= 0
    requires Transactions.HashFree(s.txs, s.nextId, Some(hash))
    ensures ProcessDonation(s, campaignId, Some(amount), wallet, user, now, Done(hash)).response.Reply?
  {
    var t := Recorded(campaignId, Some(amount), user, hash);
    assert Transactions.Valid(t);
    var ins := InsertTx(s, t, now);
    AddressKeptIsFree(ins.value.0, campaignId, Credit(s.campaigns[campaignId], amount, ins.value.1));
  }

  /** In a well-formed store every failed donation leaves the store exactly as it was, and
      every step keeps the store well-formed. */
  lemma ProcessDonationKeepsStoreWellformed(s: Store, campaignId: Id, amount: Option<int>, wallet: Option<string>, user: User, now: int, ledger: Outcome)
    requires Wellformed(s)
    ensures var r := ProcessDonation(s, campaignId, amount, wallet, user, now, ledger);
            Wellformed(r.store) && (r.response.Fault? ==> r.store == s)
  {
    if campaignId in s.campaigns && ledger.Done? {
      var t := Recorded(campaignId, amount, user, ledger.value);
      var ins := InsertTx(s, t, now);
      if ins.Ok? {
        var c := s.campaigns[campaignId];
        AddressKeptIsFree(ins.value.0, campaignId, Credit(c, amount.value, ins.value.1));
      }
    }
  }

  // ----- a sequence of donations -----

  /** One processDonation request together with the ledger's answer to it. */
  datatype Request = Request(campaignId: Id, amount: Option<int>, wallet: Option<string>, user: User, now: int, ledger: Outcome)

  /** Serves the requests one after another. */
  function Run(s: Store, reqs: seq<Request>): (r: (Store, seq<Response<(string, Id)>>))
    ensures |r.1| == |reqs|
    decreases |reqs|
  {
    if |reqs| == 0 then (s, [])
    else
      var q := reqs[0];
      var step := ProcessDonation(s, q.campaignId, q.amount, q.wallet, q.user, q.now, q.ledger);
      var rest := Run(step.store, reqs[1..]);
      (rest.0, [step.response] + rest.1)
  }

  /** The total of the amounts of the requests to `c` that were answered with success. */
  function Accepted(reqs: seq<Request>, responses: seq<Response<(string, Id)>>, c: Id): int
    requires |responses| == |reqs|
    decreases |reqs|
  {
    if |reqs| == 0 then 0
    else
      (if responses[0].Reply? && reqs[0].campaignId == c then reqs[0].amount.GetOr(0) else 0)
      + Accepted(reqs[1..], responses[1..], c)
  }

  /** The number of requests to `c` that were answered with success. */
  function AcceptedCount(reqs: seq<Request>, responses: seq<Response<(string, Id)>>, c: Id): nat
    requires |responses| == |reqs|
    decreases |reqs|
  {
    if |reqs| == 0 then 0
    else
      (if responses[0].Reply? && reqs[0].campaignId == c then 1 else 0)
      + AcceptedCount(reqs[1..], responses[1..], c)
  }

  /** One donation moves a campaign's totals only when it is to that campaign and succeeds. */
  lemma StepTotals(s: Store, q: Request, c: Id)
    requires c in s.campaigns
    ensures var step := ProcessDonation(s, q.campaignId, q.amount, q.wallet, q.user, q.now, q.ledger);
            var counted := step.response.Reply? && q.campaignId == c;
            && c in step.store.campaigns
            && step.store.campaigns[c].raised == s.campaigns[c].raised + (if counted then q.amount.GetOr(0) else 0)
            && step.store.campaigns[c].donors == s.campaigns[c].donors + (if counted then 1 else 0)
  {
  }

  /**
   * Served one after another, donations lose no update: a campaign's `raised` grows by
   * exactly the sum of its successfully answered donations, and `donors` by their number.
   */
  lemma {:induction false} TotalsCountAcceptedDonations(s: Store, reqs: seq<Request>, c: Id)
    requires c in s.campaigns
    ensures var (final, responses) := Run(s, reqs);
            && c in final.campaigns
            && final.campaigns[c].raised == s.campaigns[c].raised + Accepted(reqs, responses, c)
            && final.campaigns[c].donors == s.campaigns[c].donors + AcceptedCount(reqs, responses, c)
    decreases |reqs|
  {
    if |reqs| > 0 {
      var q := reqs[0];
      var step := ProcessDonation(s, q.campaignId, q.amount, q.wallet, q.user, q.now, q.ledger);
      StepTotals(s, q, c);
      TotalsCountAcceptedDonations(step.store, reqs[1..], c);
      var responses := Run(s, reqs).1;
      assert responses[0] == step.response;
      assert responses[1..] == Run(step.store, reqs[1..]).1;
    }
  }
}

=== FILE: ledger.dfy ===
/**
 * The blockchain service as the controllers see it. Each call either yields a value (the
 * deployed contract's address, or the donation transaction's hash) or throws; which one is
 * decided outside the record layer, so the outcome is an input to each operation. The calls
 * an operation makes are recorded with the arguments it passes.
 */
module Ledger {
  import opened Base

  datatype Outcome = Done(value: string) | Failed

  datatype Call =
    | Deploy(target: Option<int>, beneficiaryAddress: Option<string>, organizationAddress: Option<string>)
    | Donate(contractAddress: Option<string>, amount: Option<int>, donorAddress: Option<string>)
}

=== FILE: listing.dfy ===
/**
 * The campaign listing: the filter built from the query (always `active`, plus category,
 * urgency and a text search when given) and the page arithmetic over the matching campaigns.
 */
module Listing {
  import opened Base
  import Campaigns

  const DefaultPage := 1
  const DefaultLimit := 12
  const FetchFailed := "Failed to fetch donations"

  /** The query parameters that select campaigns. */
  datatype Filter = Filter(category: Option<string>, urgency: Option<string>, search: Option<string>)

  /** The query parameters, as integers where the page arithmetic uses them. */
  datatype Query = Query(page: Option<int>, limit: Option<int>, filter: Filter)

  /** The listing payload. */
  datatype Page = Page(donations: seq<Campaigns.Campaign>, currentPage: int, totalPages: int, totalDonations: nat)

  function PageOf(q: Query): int {
    q.page.GetOr(DefaultPage)
  }

  function LimitOf(q: Query): int {
    q.limit.GetOr(DefaultLimit)
  }

  /** `n · limit`, as repeated addition so that the page arithmetic stays linear. */
  function Times(n: nat, limit: nat): nat {
    if n == 0 then 0 else Times(n - 1, limit) + limit
  }

  lemma {:induction false} TimesIsProduct(n: nat, limit: nat)
    ensures Times(n, limit) == n * limit
  {
    if n > 0 {
      TimesIsProduct(n - 1, limit);
      assert n * limit == (n - 1) * limit + limit;
    }
  }

  /** The number of matches skipped before the requested page: (page − 1) · limit. */
  function Skip(q: Query): nat
    requires PageOf(q) >= 1 && LimitOf(q) >= 0
  {
    Times(PageOf(q) - 1, LimitOf(q))
  }

  /**
   * Whether a campaign passes the query's filter. `hit(search, c)` stands for the
   * case-insensitive pattern match of the search text against the title, the description
   * or the organization's name.
   */
  predicate Matches(q: Filter, hit: (string, Campaigns.Campaign) -> bool, c: Campaigns.Campaign) {
    && c.status == "active"
    && (Filled(q.category) ==> c.category == q.category)
    && (Filled(q.urgency) ==> c.urgency == q.urgency.value)
    && (Filled(q.search) ==> hit(q.search.value, c))
  }

  /** The campaigns of `docs` that pass the filter, in the order of `docs`. */
  function Select(docs: seq<Campaigns.Campaign>, q: Filter, hit: (string, Campaigns.Campaign) -> bool): (r: seq<Campaigns.Campaign>)
    ensures |r| <= |docs|
    ensures forall c :: c in r <==> c in docs && Matches(q, hit, c)
    decreases |docs|
  {
    if |docs| == 0 then []
    else (if Matches(q, hit, docs[0]) then [docs[0]] else []) + Select(docs[1..], q, hit)
  }

  /**
   * The selection keeps the collection's order: selecting from two runs one after the other
   * gives the selection from the first followed by the selection from the second.
   */
  lemma {:induction false} SelectAppend(a: seq<Campaigns.Campaign>, b: seq<Campaigns.Campaign>, q: Filter, hit: (string, Campaigns.Campaign) -> bool)
    ensures Select(a + b, q, hit) == Select(a, q, hit) + Select(b, q, hit)
    decreases |a|
  {
    if |a| > 0 {
      assert (a + b)[0] == a[0] && (a + b)[1..] == a[1..] + b;
      SelectAppend(a[1..], b, q, hit);
    } else {
      assert a + b == b;
    }
  }

  /** The number of pages of `limit` items that `total` items fill. */
  function TotalPages(total: nat, limit: int): (r: nat)
    requires limit >= 1
    ensures total == 0 ==> r == 0
    ensures total > 0 ==> (r - 1) * limit < total <= r * limit
  {
    var r := (total + limit - 1) / limit;
    CeilBounds(total, limit, r);
    r
  }

  lemma CeilBounds(total: nat, limit: int, r: int)
    requires limit >= 1 && r == (total + limit - 1) / limit
    ensures r >= 0
    ensures total == 0 ==> r == 0
    ensures total > 0 ==> (r - 1) * limit < total <= r * limit
  {
    var m := (total + limit - 1) % limit;
    assert total + limit - 1 == r * limit + m && 0 <= m < limit;
    assert (r - 1) * limit == r * limit - limit;
  }

  /** The items of `matches` shown after skipping `skip` of them, at most `limit`. */
  function Window(matches: seq<Campaigns.Campaign>, skip: nat, limit: nat): (w: seq<Campaigns.Campaign>)
    ensures |w| == (if skip >= |matches| then 0 else Min(limit, |matches| - skip))
    ensures forall j | 0 <= j < |w| :: w[j] == matches[skip + j]
    ensures forall c | c in w :: c in matches
  {
    if skip >= |matches| then [] else matches[skip..Min(skip + limit, |matches|)]
  }

  /**
   * Lists the campaigns of `docs` (the collection in its listing order, newest first) that
   * pass the query's filter, one page at a time. A page below 1 makes the skip negative,
   * which the database refuses.
   */
  function GetDonations(docs: seq<Campaigns.Campaign>, q: Query, hit: (string, Campaigns.Campaign) -> bool): (r: Response<Page>)
    requires q.limit.None? || q.limit.value >= 1
    ensures r.Fault? <==> PageOf(q) < 1
    ensures r.Fault? ==> r == Fault(500, FetchFailed)
    ensures r.Reply? ==>
              var matches := Select(docs, q.filter, hit);
              && r.code == 200
              && r.data.currentPage == PageOf(q)
              && r.data.totalDonations == |matches|
              && r.data.totalPages == TotalPages(|matches|, LimitOf(q))
              // at most `limit` items, fewer only on the last page or past it
              && |r.data.donations| == (if Skip(q) >= |matches| then 0 else Min(LimitOf(q), |matches| - Skip(q)))
              // the page is the run of matches that starts after the skipped ones
              && (forall j | 0 <= j < |r.data.donations| :: r.data.donations[j] == matches[Skip(q) + j])
              && (forall c | c in r.data.donations :: c in docs && Matches(q.filter, hit, c))
  {
    if PageOf(q) < 1 then Fault(500, FetchFailed)
    else
      var matches := Select(docs, q.filter, hit);
      Reply(200, Page(Window(matches, Skip(q), LimitOf(q)), PageOf(q), TotalPages(|matches|, LimitOf(q)), |matches|))
  }

  /** A page count of `pages` pages of `limit` items leaves no multiple k · limit below the
      total with k at or past `pages`. */
  lemma PageWithinCount(k: nat, limit: int, total: nat, pages: int)
    requires limit >= 1 && k * limit < total <= pages * limit
    ensures k + 1 <= pages
  {
    if k >= pages {
      MultiplyMonotone(pages, k, limit);
    }
  }

  /** Page k + 1 starts before the end of the matches exactly when it is within the page count. */
  lemma PageStartWithinCount(k: nat, limit: int, total: nat)
    requires limit >= 1 && Times(k, limit) < total
    ensures k + 1 <= TotalPages(total, limit)
  {
    TimesIsProduct(k, limit);
    PageWithinCount(k, limit, total, TotalPages(total, limit));
  }

  /** Page k + 1 skips k · limit matches. */
  lemma SkipOfPage(q: Query, k: nat)
    requires LimitOf(q) >= 0
    ensures var q' := q.(page := Some(k + 1));
            && PageOf(q') == k + 1 && LimitOf(q') == LimitOf(q) && q'.filter == q.filter
            && Skip(q') == k * LimitOf(q)
  {
    TimesIsProduct(k, LimitOf(q));
  }

  /** A page that starts before the end of the matches is answered and within the page count. */
  lemma PageAnswered(docs: seq<Campaigns.Campaign>, q: Query, hit: (string, Campaigns.Campaign) -> bool)
    requires q.limit.None? || q.limit.value >= 1
    requires PageOf(q) >= 1 && Skip(q) < |Select(docs, q.filter, hit)|
    ensures var r := GetDonations(docs, q, hit);
            r.Reply? && PageOf(q) <= r.data.totalPages
  {
    PageStartWithinCount(PageOf(q) - 1, LimitOf(q), |Select(docs, q.filter, hit)|);
  }

  /** Item m of a page is the match that follows the skipped ones by m. */
  lemma ItemOnPage(docs: seq<Campaigns.Campaign>, q: Query, hit: (string, Campaigns.Campaign) -> bool, m: nat)
    requires q.limit.None? || q.limit.value >= 1
    requires PageOf(q) >= 1 && m < LimitOf(q) && Skip(q) + m < |Select(docs, q.filter, hit)|
    ensures var r := GetDonations(docs, q, hit);
            && r.Reply?
            && m < |r.data.donations|
            && r.data.donations[m] == Select(docs, q.filter, hit)[Skip(q) + m]
  {
  }

  /**
   * Paging loses nothing: every match, numbered k · limit + m with m < limit, is item m of
   * page k + 1, and that page is within the advertised page count.
   */
  lemma EveryMatchIsListed(docs: seq<Campaigns.Campaign>, q: Query, hit: (string, Campaigns.Campaign) -> bool, k: nat, m: nat)
    requires q.limit.None? || q.limit.value >= 1
    requires m < LimitOf(q) && k * LimitOf(q) + m < |Select(docs, q.filter, hit)|
    ensures var r := GetDonations(docs, q.(page := Some(k + 1)), hit);
            && r.Reply?
            && k + 1 <= r.data.totalPages
            && m < |r.data.donations|
            && r.data.donations[m] == Select(docs, q.filter, hit)[k * LimitOf(q) + m]
  {
    var q' := q.(page := Some(k + 1));
    SkipOfPage(q, k);
    PageAnswered(docs, q', hit);
    ItemOnPage(docs, q', hit, m);
  }

  lemma MultiplyMonotone(a: int, b: int, m: int)
    requires a <= b && m >= 0
    ensures a * m <= b * m
  {
  }

  /** Without category, urgency or search, the filter keeps exactly the active campaigns. */
  lemma UnfilteredListsAllActive(docs: seq<Campaigns.Campaign>, q: Filter, hit: (string, Campaigns.Campaign) -> bool)
    requires !Filled(q.category) && !Filled(q.urgency) && !Filled(q.search)
    ensures forall c :: c in Select(docs, q, hit) <==> c in docs && c.status == "active"
  {
  }
}

=== FILE: records.dfy ===
/**
 * The record store the controllers work against: the campaign and transaction collections
 * and the source of fresh document ids, with the invariant every save maintains.
 */
module Records {
  import opened Base
  import opened Validation
  import Transactions
  import Campaigns

  datatype Store = Store(campaigns: Campaigns.Collection, txs: Transactions.Collection, nextId: Id)

  /** No two stored transactions share a present transaction hash. */
  predicate UniqueHashes(txs: Transactions.Collection) {
    forall a, b | a in txs && b in txs && a != b && txs[a].doc.transactionHash.Some? ::
      txs[a].doc.transactionHash != txs[b].doc.transactionHash
  }

  /** No two stored campaigns share a present contract address. */
  predicate UniqueAddresses(cs: Campaigns.Collection) {
    forall a, b | a in cs && b in cs && a != b && cs[a].contractAddress.Some? ::
      cs[a].contractAddress != cs[b].contractAddress
  }

  /**
   * What holds of the store between requests: ids below the counter, every document valid
   * against its schema, unique indexes respected, and every transaction's timeline ending in
   * an entry for its current status.
   */
  predicate Wellformed(s: Store) {
    && (forall k | k in s.campaigns :: k < s.nextId && Campaigns.Valid(s.campaigns[k]))
    && (forall k | k in s.txs ::
          k < s.nextId && Transactions.Valid(s.txs[k].doc) && Transactions.Consistent(s.txs[k]))
    && UniqueHashes(s.txs)
    && UniqueAddresses(s.campaigns)
  }

  /** A transaction save below the counter keeps the store well-formed. */
  lemma TxSaveKeepsWellformed(s: Store, key: Id, t: Transactions.Transaction, now: int, next: Id)
    requires (key in s.txs || key < next) && s.nextId <= next
    requires Transactions.Save(s.txs, key, t, now).Ok?
    ensures Wellformed(s) ==> Wellformed(s.(txs := Transactions.Save(s.txs, key, t, now).value, nextId := next))
  {
    if Wellformed(s) {
      var txs := Transactions.Save(s.txs, key, t, now).value;
      forall k | k in txs
        ensures k < next && Transactions.Valid(txs[k].doc) && Transactions.Consistent(txs[k])
      {
        if k != key {
          assert txs[k] == s.txs[k];
        }
      }
      forall a, b | a in txs && b in txs && a != b && txs[a].doc.transactionHash.Some?
        ensures txs[a].doc.transactionHash != txs[b].doc.transactionHash
      {
        if a != key && b != key {
          assert txs[a] == s.txs[a] && txs[b] == s.txs[b];
        }
      }
    }
  }

  /** Saves a new transaction under a fresh id. */
  function InsertTx(s: Store, t: Transactions.Transaction, now: int): (r: Result<(Store, Id), SaveError<Transactions.Path>>)
    ensures r.Ok? <==>
              s.nextId !in s.txs && Transactions.Valid(t)
              && Transactions.HashFree(s.txs, s.nextId, t.transactionHash)
    ensures r.Ok? ==>
              && r.value.1 == s.nextId
              && r.value.0 == s.(txs := s.txs[s.nextId := Transactions.Stored(t, [Transactions.Entry(t.status, now)])],
                                 nextId := s.nextId + 1)
    ensures Wellformed(s) && r.Ok? ==> Wellformed(r.value.0)
  {
    if s.nextId in s.txs then Err(DuplicateKey("_id"))
    else
      match Transactions.Save(s.txs, s.nextId, t, now)
      case Err(e) => Err(e)
      case Ok(txs) =>
        TxSaveKeepsWellformed(s, s.nextId, t, now, s.nextId + 1);
        Ok((s.(txs := txs, nextId := s.nextId + 1), s.nextId))
  }

  /** Saves a changed version of a stored transaction. */
  function UpdateTx(s: Store, id: Id, t: Transactions.Transaction, now: int): (r: Result<Store, SaveError<Transactions.Path>>)
    requires id in s.txs
    ensures r.Ok? <==> Transactions.Valid(t) && Transactions.HashFree(s.txs, id, t.transactionHash)
    ensures r.Ok? ==> r.value.campaigns == s.campaigns && r.value.nextId == s.nextId
    ensures r.Ok? ==> r.value.txs.Keys == s.txs.Keys && r.value.txs[id].doc == t
    ensures r.Ok? ==> forall k | k in s.txs && k != id :: r.value.txs[k] == s.txs[k]
    ensures Wellformed(s) && r.Ok? ==> Wellformed(r.value)
  {
    match Transactions.Save(s.txs, id, t, now)
    case Err(e) => Err(e)
    case Ok(txs) =>
      TxSaveKeepsWellformed(s, id, t, now, s.nextId);
      Ok(s.(txs := txs))
  }

  /** Saves a new campaign under a fresh id. */
  function InsertCampaign(s: Store, c: Campaigns.Campaign): (r: Result<(Store, Id), SaveError<Campaigns.Path>>)
    ensures r.Ok? <==>
              s.nextId !in s.campaigns && Campaigns.Valid(c)
              && Campaigns.AddressFree(s.campaigns, s.nextId, c.contractAddress)
    ensures r.Ok? ==>
              && r.value.1 == s.nextId
              && r.value.0 == s.(campaigns := s.campaigns[s.nextId := c], nextId := s.nextId + 1)
    ensures Wellformed(s) && r.Ok? ==> Wellformed(r.value.0)
  {
    if s.nextId in s.campaigns then Err(DuplicateKey("_id"))
    else
      match Campaigns.Save(s.campaigns, s.nextId, c)
      case Err(e) => Err(e)
      case Ok(cs) => Ok((s.(campaigns := cs, nextId := s.nextId + 1), s.nextId))
  }

  /** Saves a changed version of a stored campaign. */
  function UpdateCampaign(s: Store, id: Id, c: Campaigns.Campaign): (r: Result<Store, SaveError<Campaigns.Path>>)
    requires id in s.campaigns
    ensures r.Ok? <==> Campaigns.Valid(c) && Campaigns.AddressFree(s.campaigns, id, c.contractAddress)
    ensures r.Ok? ==> r.value == s.(campaigns := s.campaigns[id := c])
    ensures Wellformed(s) && r.Ok? ==> Wellformed(r.value)
  {
    match Campaigns.Save(s.campaigns, id, c)
    case Err(e) => Err(e)
    case Ok(cs) => Ok(s.(campaigns := cs))
  }

  /** Re-saving a campaign of a well-formed store under its own contract address never breaks
      the unique index. */
  lemma AddressKeptIsFree(s: Store, id: Id, c: Campaigns.Campaign)
    requires Wellformed(s) && id in s.campaigns
    requires c.contractAddress == s.campaigns[id].contractAddress
    ensures Campaigns.AddressFree(s.campaigns, id, c.contractAddress)
  {
  }
}

=== FILE: transactions.dfy ===
/**
 * The Transaction record: its schema (required campaign reference, amount at least 0,
 * enumerated type, status and payment method, unique transaction hash) and the pre-save
 * hook that appends a timeline entry whenever a record is first saved or its status changes.
 */
module Transactions {
  import opened Base
  import opened Validation

  const Statuses: set<string> := {"pending", "confirmed", "completed", "failed", "cancelled"}
  const Kinds: set<string> := {"donation", "distribution", "refund", "fee"}
  const PaymentMethods: set<string> := {"crypto", "bank", "upi", "card"}

  const DefaultStatus := "pending"
  const DefaultCurrency := "INR"
  const DefaultPaymentMethod := "crypto"

  /** One line of a record's history. The hook never sets `txHash`. */
  datatype TimelineEntry = TimelineEntry(status: string, timestamp: int, description: string, txHash: Option<string>)

  /** The fields of a transaction document that the record layer reads or writes. */
  datatype Transaction = Transaction(
    donation: Option<Id>,
    donor: Option<Id>,
    amount: Option<int>,
    currency: string,
    kind: Option<string>,
    status: string,
    transactionHash: Option<string>,
    paymentMethod: string)

  /** A transaction as the collection holds it: the document and the timeline its saves built. */
  datatype Stored = Stored(doc: Transaction, timeline: seq<TimelineEntry>)

  type Collection = map<Id, Stored>

  /** What a caller gives when constructing a transaction; absent fields take their defaults. */
  datatype Draft = Draft(
    donation: Option<Id>,
    donor: Option<Id>,
    amount: Option<int>,
    kind: Option<string>,
    status: Option<string>,
    transactionHash: Option<string>)

  function Create(d: Draft): (t: Transaction)
    ensures d.status.None? ==> t.status == DefaultStatus
    ensures d.status.Some? ==> t.status == d.status.value
    ensures t.currency == DefaultCurrency && t.paymentMethod == DefaultPaymentMethod
    ensures t.donation == d.donation && t.donor == d.donor && t.amount == d.amount
    ensures t.kind == d.kind && t.transactionHash == d.transactionHash
  {
    Transaction(d.donation, d.donor, d.amount, DefaultCurrency, d.kind,
                d.status.GetOr(DefaultStatus), d.transactionHash, DefaultPaymentMethod)
  }

  // ----- schema validation -----

  datatype Path = DonationRef | Amount | Kind | Status | PaymentMethod

  function Rules(p: Path): seq<Rule> {
    match p
    case DonationRef => [Required]
    case Amount => [Required, AtLeast(0)]
    case Kind => [OneOf(Kinds), Required]
    case Status => [OneOf(Statuses)]
    case PaymentMethod => [OneOf(PaymentMethods)]
  }

  const TxSchema: Schema<Path> := Schema({DonationRef, Amount, Kind, Status, PaymentMethod}, Rules)

  function FieldValue(t: Transaction, p: Path): Value {
    match p
    case DonationRef => if t.donation.Some? then Ref(t.donation.value) else Absent
    case Amount => if t.amount.Some? then Num(t.amount.value) else Absent
    case Kind => if t.kind.Some? then Str(t.kind.value) else Absent
    case Status => Str(t.status)
    case PaymentMethod => Str(t.paymentMethod)
  }

  /** What the schema demands of every stored transaction. */
  predicate Valid(t: Transaction) {
    && t.donation.Some?
    && t.amount.Some? && t.amount.value >= 0
    && t.kind.Some? && t.kind.value in Kinds
    && t.status in Statuses
    && t.paymentMethod in PaymentMethods
  }

  /** The paths the schema rejects; none exactly when the transaction is valid. */
  function Check(t: Transaction): (bad: set<Path>)
    ensures bad == {} <==> Valid(t)
  {
    var value := (p: Path) => FieldValue(t, p);
    var bad := Violations(TxSchema, value);
    ViolationsAre(TxSchema, value);
    PathOkOne(Required, value(DonationRef));
    PathOkTwo(Required, AtLeast(0), value(Amount));
    PathOkTwo(OneOf(Kinds), Required, value(Kind));
    PathOkOne(OneOf(Statuses), value(Status));
    PathOkOne(OneOf(PaymentMethods), value(PaymentMethod));
    bad
  }

  /** The sparse unique index on `transactionHash`: a present hash is held by no other record. */
  predicate HashFree(txs: Collection, key: Id, h: Option<string>) {
    h.None? || forall k | k in txs && k != key :: txs[k].doc.transactionHash != h
  }

  // ----- the pre-save hook -----

  /** The entry the hook appends for a record saved with `status` at time `now`. */
  function Entry(status: string, now: int): TimelineEntry {
    TimelineEntry(status, now, "Transaction " + status, None)
  }

  /** The timeline after the hook ran on `t`, given the stored version `prior` (None when new). */
  function Hooked(prior: Option<Stored>, t: Transaction, now: int): seq<TimelineEntry> {
    var timeline := if prior.Some? then prior.value.timeline else [];
    if prior.None? || prior.value.doc.status != t.status then timeline + [Entry(t.status, now)]
    else timeline
  }

  /** A timeline that records the current status as its latest entry. */
  predicate Consistent(s: Stored) {
    |s.timeline| > 0 && Last(s.timeline).status == s.doc.status
  }

  /**
   * Saves `t` under `key` at time `now`: validation first, then the unique hash index, then
   * the hook and the write. A key not in the collection is a new record.
   */
  function Save(txs: Collection, key: Id, t: Transaction, now: int): (r: Result<Collection, SaveError<Path>>)
    ensures r.Ok? <==> Valid(t) && HashFree(txs, key, t.transactionHash)
    ensures r.Err? && !Valid(t) ==> r.error.ValidationError? && r.error.paths != {}
    ensures r.Ok? ==> r.value.Keys == txs.Keys + {key} && r.value[key].doc == t
    ensures r.Ok? ==> forall k | k in txs && k != key :: r.value[k] == txs[k]
    // a new record starts with exactly one entry, for its initial status
    ensures r.Ok? && key !in txs ==> r.value[key].timeline == [Entry(t.status, now)]
    // a status change appends exactly one entry
    ensures r.Ok? && key in txs && txs[key].doc.status != t.status ==>
              r.value[key].timeline == txs[key].timeline + [Entry(t.status, now)]
    // a save that keeps the status keeps the timeline
    ensures r.Ok? && key in txs && txs[key].doc.status == t.status ==>
              r.value[key].timeline == txs[key].timeline
    // append-only: the old timeline is a prefix, and at most one entry is added
    ensures r.Ok? && key in txs ==>
              txs[key].timeline <= r.value[key].timeline
              && |r.value[key].timeline| <= |txs[key].timeline| + 1
    ensures r.Ok? && (key in txs ==> Consistent(txs[key])) ==> Consistent(r.value[key])
  {
    var bad := Check(t);
    if bad != {} then Err(ValidationError(bad))
    else if !HashFree(txs, key, t.transactionHash) then Err(DuplicateKey("transactionHash"))
    else
      var prior := if key in txs then Some(txs[key]) else None;
      Ok(txs[key := Stored(t, Hooked(prior, t, now))])
  }

  // ----- the timeline as a history of status changes -----

  /** Applies a series of saves `(document, time)` to one key, stopping at the first refusal. */
  function SaveAll(txs: Collection, key: Id, saves: seq<(Transaction, int)>): Result<Collection, SaveError<Path>>
    decreases |saves|
  {
    if |saves| == 0 then Ok(txs)
    else
      match Save(txs, key, saves[0].0, saves[0].1)
      case Err(e) => Err(e)
      case Ok(next) => SaveAll(next, key, saves[1..])
  }

  /** The statuses a timeline records, in order. */
  function StatusTrail(timeline: seq<TimelineEntry>): seq<string> {
    seq(|timeline|, i requires 0 <= i < |timeline| => timeline[i].status)
  }

  /** The statuses of a series of saves, in order. */
  function SavedStatuses(saves: seq<(Transaction, int)>): seq<string> {
    seq(|saves|, i requires 0 <= i < |saves| => saves[i].0.status)
  }

  /** `xs` with every run of equal neighbouring values reduced to one value. */
  function Collapse(xs: seq<string>): seq<string>
    decreases |xs|
  {
    if |xs| <= 1 then xs
    else
      var init := xs[..|xs| - 1];
      if Last(init) == Last(xs) then Collapse(init) else Collapse(init) + [Last(xs)]
  }

  lemma SavedStatusesCons(saves: seq<(Transaction, int)>)
    requires |saves| > 0
    ensures SavedStatuses(saves) == [saves[0].0.status] + SavedStatuses(saves[1..])
  {
  }

  lemma SavedStatusesSplit(hist: seq<string>, saves: seq<(Transaction, int)>)
    requires |saves| > 0
    ensures (hist + [saves[0].0.status]) + SavedStatuses(saves[1..]) == hist + SavedStatuses(saves)
  {
    SavedStatusesCons(saves);
  }

  lemma StatusesAppend(timeline: seq<TimelineEntry>, e: TimelineEntry)
    ensures StatusTrail(timeline + [e]) == StatusTrail(timeline) + [e.status]
  {
  }

  /** The first of a series of successful saves extends the recorded history by its status. */
  lemma FirstSave(txs: Collection, key: Id, hist: seq<string>, saves: seq<(Transaction, int)>) returns (next: Collection)
    requires key in txs && |hist| > 0 && Last(hist) == txs[key].doc.status
    requires StatusTrail(txs[key].timeline) == Collapse(hist)
    requires |saves| > 0 && SaveAll(txs, key, saves).Ok?
    ensures SaveAll(txs, key, saves) == SaveAll(next, key, saves[1..])
    ensures key in next && next[key].doc.status == saves[0].0.status
    ensures StatusTrail(next[key].timeline) == Collapse(hist + [saves[0].0.status])
  {
    var t, now := saves[0].0, saves[0].1;
    next := Save(txs, key, t, now).value;
    var h := hist + [t.status];
    assert h[..|h| - 1] == hist;
    if txs[key].doc.status != t.status {
      StatusesAppend(txs[key].timeline, Entry(t.status, now));
    }
  }

  /** The induction behind TimelineIsStatusHistory, from any history already recorded. */
  lemma {:induction false} HistoryExtends(txs: Collection, key: Id, hist: seq<string>, saves: seq<(Transaction, int)>)
    requires key in txs && |hist| > 0 && Last(hist) == txs[key].doc.status
    requires StatusTrail(txs[key].timeline) == Collapse(hist)
    requires SaveAll(txs, key, saves).Ok?
    ensures key in SaveAll(txs, key, saves).value
    ensures StatusTrail(SaveAll(txs, key, saves).value[key].timeline) == Collapse(hist + SavedStatuses(saves))
    decreases |saves|
  {
    if |saves| == 0 {
      assert hist + SavedStatuses(saves) == hist;
    } else {
      var next := FirstSave(txs, key, hist, saves);
      var h := hist + [saves[0].0.status];
      HistoryExtends(next, key, h, saves[1..]);
      SavedStatusesSplit(hist, saves);
    }
  }

  /** The first save of a new record starts its history with the saved status. */
  lemma FirstInsert(txs: Collection, key: Id, saves: seq<(Transaction, int)>) returns (next: Collection)
    requires key !in txs && |saves| > 0 && SaveAll(txs, key, saves).Ok?
    ensures SaveAll(txs, key, saves) == SaveAll(next, key, saves[1..])
    ensures key in next && next[key].doc.status == saves[0].0.status
    ensures StatusTrail(next[key].timeline) == [saves[0].0.status]
  {
    next := Save(txs, key, saves[0].0, saves[0].1).value;
  }

  /**
   * Over the whole life of a record, its timeline lists the status of its first save and then
   * one entry per status change, in order: the saved statuses with repeats collapsed.
   */
  lemma {:induction false} TimelineIsStatusHistory(txs: Collection, key: Id, saves: seq<(Transaction, int)>)
    requires key !in txs && |saves| > 0
    requires SaveAll(txs, key, saves).Ok?
    ensures key in SaveAll(txs, key, saves).value
    ensures StatusTrail(SaveAll(txs, key, saves).value[key].timeline) == Collapse(SavedStatuses(saves))
  {
    var first := FirstInsert(txs, key, saves);
    var h := [saves[0].0.status];
    assert Collapse(h) == h;
    HistoryExtends(first, key, h, saves[1..]);
    SavedStatusesCons(saves);
  }
}

=== FILE: validation.dfy ===
/**
 * Schema validation as the document mapper performs it before every save: each path of a
 * schema carries a list of rules, and the save is refused, naming every failing path, when
 * any rule of any path fails. The rules are the four the record layer's schemas use.
 */
module Validation {
  import opened Base

  /** The value a document holds at one path. */
  datatype Value = Absent | Str(s: string) | Num(n: int) | Ref(id: Id)

  datatype Rule =
    | Required                     // present; a string must also be non-empty
    | AtLeast(bound: int)          // a number no smaller than the bound
    | MaxLength(most: nat)         // a string no longer than the bound
    | OneOf(options: set<string>)  // a string from the enumeration

  /** Whether one value passes one rule. Only `Required` rejects an absent value. */
  predicate Satisfies(v: Value, rule: Rule) {
    match rule
    case Required =>
      (match v
       case Absent => false
       case Str(s) => |s| > 0
       case _ => true)
    case AtLeast(bound) => !v.Num? || v.n >= bound
    case MaxLength(most) => !v.Str? || |v.s| <= most
    case OneOf(options) => v.Absent? || (v.Str? && v.s in options)
  }

  /** A schema: the paths it declares, and the rules each path's value must satisfy. */
  datatype Schema<!P> = Schema(paths: set<P>, rules: P -> seq<Rule>)

  predicate PathOk(rules: seq<Rule>, v: Value) {
    forall rule | rule in rules :: Satisfies(v, rule)
  }

  lemma PathOkOne(a: Rule, v: Value)
    ensures PathOk([a], v) <==> Satisfies(v, a)
  {
    assert a in [a];
  }

  lemma PathOkTwo(a: Rule, b: Rule, v: Value)
    ensures PathOk([a, b], v) <==> Satisfies(v, a) && Satisfies(v, b)
  {
    assert a in [a, b] && b in [a, b];
  }

  /** The declared paths whose value in the document `value` breaks one of their rules. */
  function Violations<P(==, !new)>(schema: Schema<P>, value: P -> Value): set<P> {
    set p | p in schema.paths && !PathOk(schema.rules(p), value(p))
  }

  lemma ViolationsAre<P(!new)>(schema: Schema<P>, value: P -> Value)
    ensures forall p :: p in Violations(schema, value) <==> p in schema.paths && !PathOk(schema.rules(p), value(p))
  {
  }

  /** Why a save was refused: validation failed on these paths, or a unique index already
      holds the value being written. */
  datatype SaveError<P> = ValidationError(paths: set<P>) | DuplicateKey(index: string)
}
